=== FILE: README.md ===
# Attendance terminal core, modelled in Dafny

The terminal watches a room through a webcam. For every face the detector
reports, it keeps only confident, large detections, crops the face with a
10-pixel margin clamped to the frame, turns the crop into a planar (CHW)
tensor for the embedding network, matches the embedding against the roster
of enrolled students, and records each matched student in a map of
presence records (`PresenceInfo`) stamped with the wall clock.

This project models those rules. The camera, the detector, the embedding
network and the clock are parameters; similarity between embeddings is an
abstract function `sim`.

| module | file | models |
|---|---|---|
| `Wrappers` | wrappers.dfy | `Option`, standing in for Java's `null` |
| `JavaInt` | java_int.dfy | Java `int`/`long` as subset types, two's-complement wrap, `Math.max`/`Math.min` |
| `MatchResults` | match_result.dfy | `MatchResult` value with its setters |
| `Presence` | presence_info.dfy | `PresenceInfo`: constructor, `updateLastSeen`, `isStillPresent`, setters |
| `Geometry` | geometry.dfy | `Rect`, the detection filter, `safeRect` |
| `Matcher` | matcher.dfy | `matchEmbedding` over a roster sequence |
| `TensorLayout` | tensor_layout.dfy | `matToCHWFloatArray` |
| `Tracker` | tracker.dfy | `trackPresence` over the active-student map |
| `Pipeline` | pipeline.dfy | the per-detection body of the monitoring loop |

Modelling choices:

- The roster (a `ConcurrentHashMap` in the source) is a sequence in
  iteration order. So the tie-break that the strict `>` produces is
  explicit: the earliest entry with the top score wins.
- `MatchResult`'s constructor and getters are the Dafny datatype constructor
  and its destructors `studentId` and `confidenceScore`. They store and return
  exactly the given values by construction. `PresenceInfo`'s getters are
  likewise its destructors.
- The sums and differences in `safeRect`, in the face box built from the
  detector's corners and in `isStillPresent` are wrapped to 32 or 64 bits
  (`Geometry.SafeRect`, `Geometry.FaceRect`,
  `Presence.PresenceInfo.IsStillPresent`). The CHW size and index
  arithmetic is not wrapped: `TensorLayout.MatToCHWFloatArray` requires it
  to fit in an `int` instead. The clean statements about `safeRect` and `isStillPresent`
  therefore carry a no-overflow hypothesis: `WideningFits` for the widened
  box, non-negative clock readings for the presence gap.
  `AbsenceNotPermanentWithoutClockBound` shows the wrapped gap at work
  outside that hypothesis.
- OpenCV's sub-matrix constructor `new Mat(mat, rect)` throws when the
  rectangle leaves the frame. The exception leaves the frame loop and is
  caught at line 111, which ends the monitoring thread. The model calls this
  `Aborted`. Barring `int` overflow (`WideningFits`), `safeRect` returns such
  a rectangle for a box that starts at least 10 px past the frame's right or
  bottom edge (`FarOffFrameBoxGivesOutsideCrop`). A box starting closer than
  that can still give an in-frame crop (`OffFrameBoxGivesOutsideCrop`,
  `OffFrameFaceAbortsLoop`). Again barring `int` overflow, a box off the
  left or top edge has that edge of its crop clamped to 0, so its crop lies
  in the frame whenever the crop's origin does
  (`SafeRectInsideFrameIffOriginIs`). Under overflow this fails; see
  "Left out".
  OpenCV's rule (origin and size non-negative, far corner within the frame)
  is the predicate `InsideFrame`. OpenCV is not part of this model.
- `computeEmbedding` catches its own exceptions and returns `null`; the model's
  `embed` parameter returns `None` for that case.
- The roster is a free parameter. It stands for the roster the terminal is
  meant to load. As written, `knownEmbeddings` starts empty (line 29) and
  `refreshEmbeddings` never fills it. So in the program as it stands,
  `matchEmbedding` always returns `null` at lines 191-192 and `trackPresence`
  is never reached; the model covers the empty roster as that case.

## Model

| member | source | states |
|---|---|---|
| `Geometry.SafeRect` | src/main/java/am/mt240/sadoyan/monitoring/MonitoringTerminal.java:124-134 | for any box and frame, the crop's origin is non-negative and both sides are at least one pixel; whenever the clamped corners enclose a real box (`x2 > x1`, `y2 > y1`), the crop lies inside the frame, with no overflow hypothesis |
| `Geometry.SafeRectInsideFrameIffOriginIs` | src/main/java/am/mt240/sadoyan/monitoring/MonitoringTerminal.java:125-133 | barring `int` overflow, the crop lies inside the frame exactly when its origin does |
| `Geometry.SafeRectKeepsWidenedBoxInFrame` | src/main/java/am/mt240/sadoyan/monitoring/MonitoringTerminal.java:125-133 | when the box widened by 10 px on every side lies in the frame, the crop is exactly that widened box |
| `Geometry.InFrameBoxGivesInFrameCrop` | src/main/java/am/mt240/sadoyan/monitoring/MonitoringTerminal.java:124-134 | a box inside the frame yields a crop inside the frame |
| `Geometry.FarOffFrameBoxGivesOutsideCrop` | src/main/java/am/mt240/sadoyan/monitoring/MonitoringTerminal.java:124-134 | barring overflow, a box of non-negative size starting at least 10 px past the right (bottom) edge yields a crop one pixel wide (high) that lies outside the frame |
| `Geometry.OffFrameBoxGivesOutsideCrop` | src/main/java/am/mt240/sadoyan/monitoring/MonitoringTerminal.java:124-134 | two instances in a 640 x 480 frame: a box at x = 700 gives the outside crop `Rect(690,90,1,120)`, and a box at x = 645 gives the in-frame crop `Rect(635,90,5,120)` |
| `Geometry.FaceRect` | src/main/java/am/mt240/sadoyan/monitoring/MonitoringTerminal.java:85-90 | the face box starts at the first corner; when the corner differences fit in an `int`, its sides are those differences |
| `Geometry.Qualifies` | src/main/java/am/mt240/sadoyan/monitoring/MonitoringTerminal.java:84-91 | no contract of its own: the filter as the loop writes it; `Geometry.QualifiesMeansConfidentAndLarge` characterises it |
| `Geometry.QualifiesMeansConfidentAndLarge` | src/main/java/am/mt240/sadoyan/monitoring/MonitoringTerminal.java:84-91 | when the corner differences fit in an `int`, a detection passes the filter iff its confidence is strictly above 0.6 and its box is at least 80 x 80 (a passing detection can still abort the loop, see `Pipeline.ProcessRegion`) |
| `Matcher.ScanKeepsInvariant` | src/main/java/am/mt240/sadoyan/monitoring/MonitoringTerminal.java:195-203 | after each loop iteration, `bestMatch` is absent with `bestScore = -1` and all scores so far below 0.5, or it is the first entry with the top score so far and that score is at least 0.5 |
| `Matcher.Score` | src/main/java/am/mt240/sadoyan/monitoring/MonitoringTerminal.java:197-198 | no contract of its own: the scoring step of line 198; `Matcher.MatchIsFirstBest` characterises it |
| `Matcher.Step` | src/main/java/am/mt240/sadoyan/monitoring/MonitoringTerminal.java:199-202 | one iteration: the best score never decreases, and the best changes only to the current entry, and only when that entry's score is at least 0.5 |
| `Matcher.Scan` | src/main/java/am/mt240/sadoyan/monitoring/MonitoringTerminal.java:195-203 | after the loop, an absent best keeps the initial score -1 and a held best has a score of at least 0.5; `Matcher.ScanKeepsInvariant` gives the full invariant |
| `Matcher.Select` | src/main/java/am/mt240/sadoyan/monitoring/MonitoringTerminal.java:195-208 | a match is the first best candidate with a score of at least 0.5; no match iff every score is below 0.5 |
| `Matcher.MatchEmbedding` | src/main/java/am/mt240/sadoyan/monitoring/MonitoringTerminal.java:190-209 | a null probe or empty roster gives no match; a match is a roster entry with its own score, at least 0.5 and at least every roster score; no match iff every score is below 0.5 |
| `Matcher.MatchIsFirstBest` | src/main/java/am/mt240/sadoyan/monitoring/MonitoringTerminal.java:195-208 | the match equals the reference winner: the first top-scoring entry when its score is at least 0.5, otherwise none |
| `Matcher.FirstBestExists` | src/main/java/am/mt240/sadoyan/monitoring/MonitoringTerminal.java:197-203 | every non-empty roster has a first top-scoring entry |
| `Matcher.TiesGoToEarliest` | src/main/java/am/mt240/sadoyan/monitoring/MonitoringTerminal.java:197-202 | when entries `i < j` share the top acceptable score, the match is an entry no later than `i` with that score, and never entry `j` |
| `TensorLayout.ChwIndexBounds` | src/main/java/am/mt240/sadoyan/monitoring/MonitoringTerminal.java:141-148 | every index `c*H*W + y*W + x` lies in `[0, C*H*W)` |
| `TensorLayout.ChwIndexInjective` | src/main/java/am/mt240/sadoyan/monitoring/MonitoringTerminal.java:144-149 | distinct (channel, row, column) triples go to distinct slots |
| `TensorLayout.MatToCHWFloatArray` | src/main/java/am/mt240/sadoyan/monitoring/MonitoringTerminal.java:136-155 | the output has `C*H*W` slots, slot `c*H*W + y*W + x` holds the pixel value at `(y, x, c)`, and every slot is written exactly once |
| `Tracker.TrackPresence` | src/main/java/am/mt240/sadoyan/monitoring/MonitoringTerminal.java:227-233 | keys become old keys plus the id; other records unchanged; an existing record keeps first sighting, session and sync flag; a new one starts at `now` with no session; the id's record is last seen at `now` with the given score |
| `Tracker.TrackPresenceKeepsClockConsistent` | src/main/java/am/mt240/sadoyan/monitoring/MonitoringTerminal.java:227-233 | with a clock that does not run backwards, every record keeps `firstSeen <= lastSeen <= now` |
| `Tracker.RepeatedMatchesShareOneRecord` | src/main/java/am/mt240/sadoyan/monitoring/MonitoringTerminal.java:227-233 | a run of matches for a new student creates one record: first sighting from the first match, last sighting and score from the last, others untouched |
| `Tracker.RefreshesKeepRecord` | src/main/java/am/mt240/sadoyan/monitoring/MonitoringTerminal.java:228-229 | further matches for a tracked student only refresh its last sighting and score |
| `Presence.NewPresenceInfo` | src/main/java/am/mt240/sadoyan/monitoring/util/PresenceInfo.java:12-16 | a new record has first and last sighting `now`, the given score, no session, not synced, and is present at `now` |
| `Presence.PresenceInfo.UpdateLastSeen` | src/main/java/am/mt240/sadoyan/monitoring/util/PresenceInfo.java:18-21 | sets last sighting to `now` and the score, changes nothing else, and the record is present at `now` |
| `Presence.PresenceInfo.IsStillPresent` | src/main/java/am/mt240/sadoyan/monitoring/util/PresenceInfo.java:23-25 | when the `long` subtraction does not wrap, present iff the gap since the last sighting is below 10 000 ms |
| `Presence.IsStillPresentMeansRecentGap` | src/main/java/am/mt240/sadoyan/monitoring/util/PresenceInfo.java:23-25 | for non-negative clock readings, present iff less than 10 000 ms since the last sighting; a gap of exactly 10 000 ms is absent |
| `Presence.AbsenceIsPermanent` | src/main/java/am/mt240/sadoyan/monitoring/util/PresenceInfo.java:23-25 | for non-negative clock readings (`0 <= lastSeen` and `0 <= t <= t'`), once absent at `t`, a record stays absent at every later `t'` until it is updated |
| `Presence.AbsenceNotPermanentWithoutClockBound` | src/main/java/am/mt240/sadoyan/monitoring/util/PresenceInfo.java:23-25 | with negative timestamps the `long` gap wraps and an absent record can look present again later |
| `Presence.UpdatesKeepFirstSeenFirst` | src/main/java/am/mt240/sadoyan/monitoring/util/PresenceInfo.java:12-21 | with a non-decreasing clock, any run of updates keeps `firstSeen` fixed and `firstSeen <= lastSeen`, the last update's time and score win |
| `Presence.PresenceInfo.SetSessionId` | src/main/java/am/mt240/sadoyan/monitoring/util/PresenceInfo.java:31-33 | changes only the session id |
| `Presence.PresenceInfo.SetFirstSeen` | src/main/java/am/mt240/sadoyan/monitoring/util/PresenceInfo.java:39-41 | changes only the first sighting |
| `Presence.PresenceInfo.SetLastSeen` | src/main/java/am/mt240/sadoyan/monitoring/util/PresenceInfo.java:47-49 | changes only the last sighting |
| `Presence.PresenceInfo.SetLastConfidenceScore` | src/main/java/am/mt240/sadoyan/monitoring/util/PresenceInfo.java:55-57 | changes only the last score |
| `Presence.PresenceInfo.SetSyncedToBackend` | src/main/java/am/mt240/sadoyan/monitoring/util/PresenceInfo.java:63-65 | changes only the sync flag |
| `MatchResults.MatchResult.SetStudentId` | src/main/java/am/mt240/sadoyan/monitoring/util/MatchResult.java:16-18 | changes only the student id |
| `MatchResults.MatchResult.SetConfidenceScore` | src/main/java/am/mt240/sadoyan/monitoring/util/MatchResult.java:24-26 | changes only the score |
| `Pipeline.ProcessRegion` | src/main/java/am/mt240/sadoyan/monitoring/MonitoringTerminal.java:83-106 | a non-qualifying detection changes nothing; the loop aborts iff a qualifying face's crop leaves the frame, and then nothing changes; otherwise a crop that matches nobody changes nothing, and a match changes only the matched student's record, through `trackPresence` with the match's own score at `now`; any touched record is a roster student with an accepted score |
| `Pipeline.ProcessDetections` | src/main/java/am/mt240/sadoyan/monitoring/MonitoringTerminal.java:82-107 | a frame without detections changes nothing, and a frame aborts iff one of its detections qualifies and has a crop outside the frame |
| `Pipeline.LoopIteration` | src/main/java/am/mt240/sadoyan/monitoring/MonitoringTerminal.java:70-107 | a frame the grabber did not deliver changes nothing; for a delivered frame no record disappears, and every record created or refreshed belongs to a roster student, has a score of at least 0.5 and one of the frame's clock readings |
| `Pipeline.FrameTracksOnlyMatches` | src/main/java/am/mt240/sadoyan/monitoring/MonitoringTerminal.java:82-107 | over a frame, no record disappears and every record created or refreshed belongs to a roster student, has a score of at least 0.5 and one of the frame's clock readings |
| `Pipeline.UnqualifiedFrameChangesNothing` | src/main/java/am/mt240/sadoyan/monitoring/MonitoringTerminal.java:82-91 | a frame without a qualifying detection leaves the map unchanged |
| `Pipeline.InFrameDetectionsNeverAbort` | src/main/java/am/mt240/sadoyan/monitoring/MonitoringTerminal.java:93-96 | for frames at most `INT32_MAX - 10` pixels wide and high, detections whose corners lie in the frame never abort the loop |
| `Pipeline.OffFrameFaceAbortsLoop` | src/main/java/am/mt240/sadoyan/monitoring/MonitoringTerminal.java:93-96 | a large, confident face reported 60 px past the right edge aborts the loop before a later valid face is tracked |

## Left out

- Cosine similarity and `normalize` (MonitoringTerminal.java:182-188, 211-219): float arithmetic. `normalize` divides by the norm without a zero guard, and NaN and rounding make float comparisons unlike real ones. The similarity is the abstract parameter `sim`, which always returns a value. The source throws if a stored embedding is shorter than the probe; the model does not.
- Float rounding of scores and confidences: they are `real`. So are the comparisons with `0.6` (a `double`) and `0.5f`.
- The float-to-`int` casts of the detector's corner fractions (lines 85-88): a `Detection` carries the resulting pixel corners.
- Model loading, blob creation, inference, resizing and pixel normalisation (lines 33-53, 76-81, 157-180): native library calls. `embed` stands in for `computeEmbedding`.
- Camera, the Swing canvas, `Thread.sleep`, the thread itself and the `volatile`/`ConcurrentHashMap` concurrency (lines 25-31, 55-69, 108-121): I/O and threading. The loop is modelled one iteration at a time.
- Drawing on the frame (lines 94 and 100-103): `rectangle` paints a 2-pixel green border along `croppedRect` onto the same `mat` that line 96 then crops, so every embedded crop carries that border. A `putText` label can also land inside a later region's crop in the same frame. Pixel contents are not modelled: `embed` is one function of the crop rectangle for the whole frame, which assumes the embedding depends on the rectangle alone and ignores these drawn pixels.
- `refreshEmbeddings` and `startBackendUpdateThread` (lines 221-238): their bodies are empty, so the periodic refresh check (lines 65-68) has no effect. No code removes entries from the active-student map, calls `isStillPresent`, or performs check-in, heartbeat or checkout, so no sweep or session close is modelled.
- `APIClient.java`: an HTTP/JSON client with no core logic.
- Null student ids: the only producer of a `MatchResult` passes a map key, and a `ConcurrentHashMap` never holds a null key. So `studentId` is a `string` and `setStudentId(null)` is not modelled.
- Clock readings: `System.currentTimeMillis()` becomes a parameter, one reading per tracked region.
- Geometry.SafeRectInsideFrameIffOriginIs: states the iff only when the widened box does not overflow an `int` (`WideningFits`). Outside that, the wrapped width can make a crop with an in-frame origin overrun the frame. The direction the source relies on, that a non-degenerate clamped box stays inside the frame, holds for every input and is part of `Geometry.SafeRect`'s contract.
- Wrapped left or top edge: a box whose left (top) corner lies within 10 of `Integer.MIN_VALUE` makes `rect.x() - 10` (`rect.y() - 10`) at line 125 wrap to a large positive value. That edge is then not clamped to 0, and the crop leaves the frame and aborts the loop. `Geometry.SafeRect` models the wrap, but the in-frame statements about boxes off the left or top edge hold only under `WideningFits`. `Integer.MIN_VALUE` is what the cast at line 85 yields for a very negative corner.
- TensorLayout.MatToCHWFloatArray: requires `channels * cols * rows` to fit in a Java `int`. For larger images the source's array size and indices overflow, and the model does not describe what happens then.

=== FILE: geometry.dfy ===
/**
 * Face boxes in pixel coordinates: the detector's region filter and the
 * margin-and-clamp crop (`safeRect`). Coordinates are Java `int`s, so every
 * sum the source computes is wrapped to 32 bits.
 */
module Geometry {

  import opened JavaInt

  /** Pixels added on every side of a detected face before cropping. */
  const MARGIN: int := 10
  /** Smallest face width and height, in pixels, worth embedding. */
  const MIN_FACE_SIZE: int := 80
  /** A detection must be strictly more confident than this. */
  const MIN_DETECTION_CONFIDENCE: real := 0.6

  /** OpenCV's `Rect`: top-left corner plus size. */
  datatype Rect = Rect(x: Int32, y: Int32, width: Int32, height: Int32)

  /**
   * One row of the face detector's output, after the source has scaled its
   * corner fractions to pixels: confidence and the two corners.
   */
  datatype Detection = Detection(confidence: real, x1: Int32, y1: Int32, x2: Int32, y2: Int32)

  /**
   * The box the frame loop builds from a detection's corners: its origin is
   * the first corner, and when the corner differences fit in an `int` its
   * sides are those differences.
   */
  function FaceRect(d: Detection): (r: Rect)
    ensures r.x == d.x1 && r.y == d.y1
    ensures INT32_MIN <= d.x2 - d.x1 <= INT32_MAX ==> r.width == d.x2 - d.x1
    ensures INT32_MIN <= d.y2 - d.y1 <= INT32_MAX ==> r.height == d.y2 - d.y1
  {
    Rect(d.x1, d.y1, Wrap32(d.x2 - d.x1), Wrap32(d.y2 - d.y1))
  }

  /** The frame loop's filter: confident enough, and at least 80 x 80. */
  predicate Qualifies(d: Detection)
  {
    && d.confidence > MIN_DETECTION_CONFIDENCE
    && !(FaceRect(d).width < MIN_FACE_SIZE || FaceRect(d).height < MIN_FACE_SIZE)
  }

  /**
   * When the corner differences fit in an `int`, a detection passes the
   * filter exactly when its confidence exceeds 0.6 and its box spans at
   * least 80 pixels each way.
   */
  lemma QualifiesMeansConfidentAndLarge(d: Detection)
    requires INT32_MIN <= d.x2 - d.x1 <= INT32_MAX
    requires INT32_MIN <= d.y2 - d.y1 <= INT32_MAX
    ensures Qualifies(d) <==>
      d.confidence > 0.6 && d.x2 - d.x1 >= 80 && d.y2 - d.y1 >= 80
  {
  }

  /** Left edge of the widened box, clamped to the frame. */
  function ClampedLeft(rect: Rect): Int32
  {
    Max(Wrap32(rect.x - MARGIN), 0)
  }

  /** Top edge of the widened box, clamped to the frame. */
  function ClampedTop(rect: Rect): Int32
  {
    Max(Wrap32(rect.y - MARGIN), 0)
  }

  /** Right edge of the widened box, clamped to the frame. */
  function ClampedRight(rect: Rect, cols: Int32): Int32
  {
    Min(Wrap32(rect.x + rect.width + MARGIN), cols)
  }

  /** Bottom edge of the widened box, clamped to the frame. */
  function ClampedBottom(rect: Rect, rows: Int32): Int32
  {
    Min(Wrap32(rect.y + rect.height + MARGIN), rows)
  }

  /**
   * `safeRect`: widen the box by the margin, clamp its corners to the frame,
   * and never let a side drop below one pixel. The origin is never negative
   * and both sides are at least one pixel, whatever the input. Whenever the
   * clamped corners still enclose a real box, the crop lies inside the
   * frame, again for every input.
   */
  function SafeRect(rect: Rect, cols: Int32, rows: Int32): (r: Rect)
    requires 0 <= cols && 0 <= rows
    ensures r.x >= 0 && r.y >= 0
    ensures r.width >= 1 && r.height >= 1
    ensures ClampedRight(rect, cols) > ClampedLeft(rect) && ClampedBottom(rect, rows) > ClampedTop(rect)
            ==> InsideFrame(r, cols, rows)
  {
    var x1 := ClampedLeft(rect);
    var y1 := ClampedTop(rect);
    var x2 := ClampedRight(rect, cols);
    var y2 := ClampedBottom(rect, rows);
    var w := Max(Wrap32(x2 - x1), 1);
    var h := Max(Wrap32(y2 - y1), 1);
    Rect(x1, y1, w, h)
  }

  /** The margin-widened box can be computed without `int` overflow. */
  predicate WideningFits(rect: Rect)
  {
    && INT32_MIN <= rect.x - MARGIN
    && INT32_MIN <= rect.y - MARGIN
    && INT32_MIN <= rect.x + rect.width + MARGIN <= INT32_MAX
    && INT32_MIN <= rect.y + rect.height + MARGIN <= INT32_MAX
  }

  /** The crop lies inside the `cols` x `rows` frame. */
  predicate InsideFrame(r: Rect, cols: int, rows: int)
  {
    && 0 <= r.x && 0 <= r.width && r.x + r.width <= cols
    && 0 <= r.y && 0 <= r.height && r.y + r.height <= rows
  }

  /**
   * Barring overflow, a crop stays inside the frame exactly when its origin
   * does: whenever the clamped corners leave a real box it is inside, and a
   * collapsed box is the single pixel at the clamped origin.
   */
  lemma SafeRectInsideFrameIffOriginIs(rect: Rect, cols: Int32, rows: Int32)
    requires 0 <= cols && 0 <= rows
    requires WideningFits(rect)
    ensures var r := SafeRect(rect, cols, rows);
            InsideFrame(r, cols, rows) <==> r.x < cols && r.y < rows
  {
    var r := SafeRect(rect, cols, rows);
    var x1 := Max(rect.x - MARGIN, 0);
    var x2 := Min(rect.x + rect.width + MARGIN, cols);
    var y1 := Max(rect.y - MARGIN, 0);
    var y2 := Min(rect.y + rect.height + MARGIN, rows);
    assert r.x == x1 && r.y == y1;
    assert INT32_MIN <= x2 - x1 <= INT32_MAX;
    assert INT32_MIN <= y2 - y1 <= INT32_MAX;
    assert r.width == Max(x2 - x1, 1);
    assert r.height == Max(y2 - y1, 1);
  }

  /**
   * When the box widened by the margin lies wholly in the frame, the crop is
   * exactly that widened box.
   */
  lemma SafeRectKeepsWidenedBoxInFrame(rect: Rect, cols: Int32, rows: Int32)
    requires 0 <= cols && 0 <= rows
    requires 0 <= rect.width && 0 <= rect.height
    requires MARGIN <= rect.x && rect.x + rect.width + MARGIN <= cols
    requires MARGIN <= rect.y && rect.y + rect.height + MARGIN <= rows
    ensures SafeRect(rect, cols, rows)
         == Rect(rect.x - MARGIN, rect.y - MARGIN, rect.width + 2 * MARGIN, rect.height + 2 * MARGIN)
  {
  }

  /**
   * A face the detector places fully inside the frame, with a side of at
   * least one pixel, yields a crop inside the frame (barring overflow when
   * the frame is almost `Integer.MAX_VALUE` pixels wide).
   */
  lemma InFrameBoxGivesInFrameCrop(rect: Rect, cols: Int32, rows: Int32)
    requires 0 <= cols && 0 <= rows
    requires WideningFits(rect)
    requires 0 <= rect.x && 0 < rect.width && rect.x + rect.width <= cols
    requires 0 <= rect.y && 0 < rect.height && rect.y + rect.height <= rows
    ensures InsideFrame(SafeRect(rect, cols, rows), cols, rows)
  {
    SafeRectInsideFrameIffOriginIs(rect, cols, rows);
  }

  /**
   * A box (of non-negative size, without overflow) that starts at least
   * 10 pixels past the right or the bottom edge yields a crop outside the
   * frame; past the right edge the crop is one pixel wide, past the bottom
   * edge one pixel high.
   */
  lemma FarOffFrameBoxGivesOutsideCrop(rect: Rect, cols: Int32, rows: Int32)
    requires 0 <= cols && 0 <= rows
    requires WideningFits(rect)
    requires 0 <= rect.width && 0 <= rect.height
    requires rect.x - MARGIN >= cols || rect.y - MARGIN >= rows
    ensures rect.x - MARGIN >= cols ==> SafeRect(rect, cols, rows).width == 1
    ensures rect.y - MARGIN >= rows ==> SafeRect(rect, cols, rows).height == 1
    ensures !InsideFrame(SafeRect(rect, cols, rows), cols, rows)
  {
  }

  /**
   * A box that starts at least 10 pixels past the right edge, so that even
   * its widened form misses the picture, yields a one-pixel-wide crop
   * outside the frame; a box starting only 5 pixels past the edge still
   * yields a crop inside it.
   */
  lemma OffFrameBoxGivesOutsideCrop()
    ensures SafeRect(Rect(700, 100, 100, 100), 640, 480) == Rect(690, 90, 1, 120)
    ensures !InsideFrame(SafeRect(Rect(700, 100, 100, 100), 640, 480), 640, 480)
    ensures SafeRect(Rect(645, 100, 100, 100), 640, 480) == Rect(635, 90, 5, 120)
    ensures InsideFrame(SafeRect(Rect(645, 100, 100, 100), 640, 480), 640, 480)
  {
  }
}

=== FILE: java_int.dfy ===
/**
 * Java's fixed-width integers. Dafny's `int` is unbounded, so the 32-bit `int`
 * and 64-bit `long` of the source are subset types. The geometry and presence
 * arithmetic that can overflow goes through an explicit two's-complement wrap;
 * other callers require their results to fit instead.
 */
module JavaInt {

  const INT32_MIN: int := -0x8000_0000
  const INT32_MAX: int := 0x7fff_ffff
  const INT64_MIN: int := -0x8000_0000_0000_0000
  const INT64_MAX: int := 0x7fff_ffff_ffff_ffff

  type Int32 = v: int | INT32_MIN <= v <= INT32_MAX
  type Int64 = v: int | INT64_MIN <= v <= INT64_MAX

  /** The value Java's `int` arithmetic keeps of the mathematical result `v`. */
  function Wrap32(v: int): (r: Int32)
    ensures INT32_MIN <= v <= INT32_MAX ==> r == v
    ensures v > INT32_MAX && v <= INT32_MAX - INT32_MIN ==> r == v - 0x1_0000_0000
  {
    var m := v % 0x1_0000_0000;
    if m <= INT32_MAX then m else m - 0x1_0000_0000
  }

  /** The value Java's `long` arithmetic keeps of the mathematical result `v`. */
  function Wrap64(v: int): (r: Int64)
    ensures INT64_MIN <= v <= INT64_MAX ==> r == v
  {
    var m := v % 0x1_0000_0000_0000_0000;
    if m <= INT64_MAX then m else m - 0x1_0000_0000_0000_0000
  }

  /** `Math.max` on two `int`s. */
  function Max(a: int, b: int): (r: int)
    ensures r >= a && r >= b
    ensures r == a || r == b
  {
    if a >= b then a else b
  }

  /** `Math.min` on two `int`s. */
  function Min(a: int, b: int): (r: int)
    ensures r <= a && r <= b
    ensures r == a || r == b
  {
    if a <= b then a else b
  }
}

=== FILE: match_result.dfy ===
/**
 * The matcher's output: which student was recognised and with what
 * similarity. The datatype constructor and its destructors are the Java
 * constructor and getters; the two setters are functions returning the
 * updated value.
 */
module MatchResults {

  datatype MatchResult = MatchResult(studentId: string, confidenceScore: real)
  {
    /** `setStudentId`: replaces the id and keeps the score. */
    function SetStudentId(id: string): (r: MatchResult)
      ensures r.studentId == id
      ensures r.confidenceScore == confidenceScore
    {
      this.(studentId := id)
    }

    /** `setConfidenceScore`: replaces the score and keeps the id. */
    function SetConfidenceScore(score: real): (r: MatchResult)
      ensures r.confidenceScore == score
      ensures r.studentId == studentId
    {
      this.(confidenceScore := score)
    }
  }
}

=== FILE: matcher.dfy ===
/**
 * `matchEmbedding`: pick the roster entry most similar to the probe,
 * provided the similarity reaches the acceptance threshold.
 *
 * The roster is a sequence in the order the source's map iterates it, and
 * the similarity measure (cosine similarity of float vectors in the source)
 * is the abstract parameter `sim`.
 */
module Matcher {

  import opened Wrappers
  import opened MatchResults

  /** A similarity must reach this value to be a match. */
  const ACCEPT_THRESHOLD: real := 0.5
  /** The running best score before any entry has been scored. */
  const INITIAL_BEST_SCORE: real := -1.0

  /** One roster entry: a student id and that student's stored embedding. */
  datatype Entry<E> = Entry(id: string, embedding: E)

  /** A roster entry after scoring it against the probe. */
  datatype Candidate = Candidate(id: string, score: real)

  /** The loop's two running variables `bestMatch` and `bestScore`. */
  datatype Best = Best(id: Option<string>, score: real)

  /** A roster read from a map holds every student id at most once. */
  ghost predicate DistinctIds<E>(roster: seq<Entry<E>>)
  {
    forall i, j :: 0 <= i < j < |roster| ==> roster[i].id != roster[j].id
  }

  /**
   * One loop iteration: take the candidate only if it beats the best so
   * far and is acceptable. The best score never decreases, and a change
   * always installs an acceptable candidate.
   */
  function Step(b: Best, c: Candidate): (r: Best)
    ensures r.score >= b.score
    ensures r == b || (r == Best(Some(c.id), c.score) && c.score >= ACCEPT_THRESHOLD)
  {
    if c.score > b.score && c.score >= ACCEPT_THRESHOLD then Best(Some(c.id), c.score) else b
  }

  /**
   * The loop's state after visiting every candidate of `cs` in order: with
   * no match the score is still the initial -1, and a held match is always
   * acceptable.
   */
  function Scan(cs: seq<Candidate>): (r: Best)
    ensures r.id.None? ==> r.score == INITIAL_BEST_SCORE
    ensures r.id.Some? ==> r.score >= ACCEPT_THRESHOLD
    decreases |cs|
  {
    if |cs| == 0 then Best(None, INITIAL_BEST_SCORE)
    else Step(Scan(cs[..|cs| - 1]), cs[|cs| - 1])
  }

  /**
   * Reference definition of the intended winner: index `i` holds a maximal
   * score, and every earlier candidate scores strictly less.
   */
  ghost predicate IsFirstBest(cs: seq<Candidate>, i: int)
  {
    && 0 <= i < |cs|
    && (forall j :: 0 <= j < |cs| ==> cs[j].score <= cs[i].score)
    && (forall j :: 0 <= j < i ==> cs[j].score < cs[i].score)
  }

  /** What the loop state says about the candidates visited so far. */
  ghost predicate ScanInvariant(cs: seq<Candidate>, b: Best)
  {
    if b.id.None? then
      && b.score == INITIAL_BEST_SCORE
      && forall j :: 0 <= j < |cs| ==> cs[j].score < ACCEPT_THRESHOLD
    else
      && b.score >= ACCEPT_THRESHOLD
      && exists i :: IsFirstBest(cs, i) && cs[i] == Candidate(b.id.value, b.score)
  }

  lemma {:induction false} ScanKeepsInvariant(cs: seq<Candidate>)
    ensures ScanInvariant(cs, Scan(cs))
    decreases |cs|
  {
    if |cs| > 0 {
      var n := |cs| - 1;
      var pre := cs[..n];
      var c := cs[n];
      ScanKeepsInvariant(pre);
      var b := Scan(pre);
      assert forall j :: 0 <= j < n ==> cs[j] == pre[j];
      if b.id.None? {
        if c.score >= ACCEPT_THRESHOLD {
          assert IsFirstBest(cs, n);
        }
      } else {
        var i :| IsFirstBest(pre, i) && pre[i] == Candidate(b.id.value, b.score);
        if c.score > b.score {
          assert IsFirstBest(cs, n);
        } else {
          assert IsFirstBest(cs, i);
        }
      }
    }
  }

  /** At most one index is the first best. */
  lemma FirstBestIsUnique(cs: seq<Candidate>, i: int, k: int)
    requires IsFirstBest(cs, i) && IsFirstBest(cs, k)
    ensures i == k
  {
    var si, sk := cs[i].score, cs[k].score;
    assert si == sk;
    assert i < k ==> si < sk;
    assert k < i ==> sk < si;
  }

  /**
   * The selection over scored candidates: the result is the first best
   * candidate when it is acceptable, and nothing when no candidate is.
   */
  function Select(cs: seq<Candidate>): (r: Option<MatchResult>)
    ensures r.Some? ==> r.value.confidenceScore >= ACCEPT_THRESHOLD
    ensures r.Some? ==>
      exists i :: IsFirstBest(cs, i) && cs[i] == Candidate(r.value.studentId, r.value.confidenceScore)
    ensures r.None? <==> forall j :: 0 <= j < |cs| ==> cs[j].score < ACCEPT_THRESHOLD
  {
    ScanKeepsInvariant(cs);
    var b := Scan(cs);
    if b.id.Some? then Some(MatchResult(b.id.value, b.score)) else None
  }

  /** Every roster entry scored against the probe, in iteration order. */
  function Score<E>(probe: E, roster: seq<Entry<E>>, sim: (E, E) -> real): seq<Candidate>
  {
    seq(|roster|, i requires 0 <= i < |roster| => Candidate(roster[i].id, sim(probe, roster[i].embedding)))
  }

  /**
   * `matchEmbedding`. A missing probe (the embedder failed) or an empty
   * roster gives no match. Otherwise a match is a roster entry carrying its
   * own score, that score is at least 0.5 and no entry scores higher, and
   * there is no match exactly when every entry scores below 0.5.
   */
  function MatchEmbedding<E>(probe: Option<E>, roster: seq<Entry<E>>, sim: (E, E) -> real)
    : (r: Option<MatchResult>)
    ensures probe.None? || |roster| == 0 ==> r.None?
    ensures r.Some? ==> r.value.confidenceScore >= ACCEPT_THRESHOLD
    ensures r.Some? ==>
      (exists i :: 0 <= i < |roster|
         && roster[i].id == r.value.studentId
         && sim(probe.value, roster[i].embedding) == r.value.confidenceScore)
    ensures r.Some? ==> forall j :: 0 <= j < |roster| ==>
      sim(probe.value, roster[j].embedding) <= r.value.confidenceScore
    ensures probe.Some? ==>
      (r.None? <==> forall j :: 0 <= j < |roster| ==> sim(probe.value, roster[j].embedding) < ACCEPT_THRESHOLD)
  {
    if probe.None? || |roster| == 0 then None
    else
      var cs := Score(probe.value, roster, sim);
      assert |cs| == |roster|;
      assert forall i :: 0 <= i < |roster| ==>
        cs[i] == Candidate(roster[i].id, sim(probe.value, roster[i].embedding));
      var r := Select(cs);
      assert r.Some? ==>
        (exists i :: 0 <= i < |roster|
           && roster[i].id == r.value.studentId
           && sim(probe.value, roster[i].embedding) == r.value.confidenceScore
           && forall j :: 0 <= j < |roster| ==> sim(probe.value, roster[j].embedding) <= r.value.confidenceScore)
      by {
        if r.Some? {
          var i :| IsFirstBest(cs, i) && cs[i] == Candidate(r.value.studentId, r.value.confidenceScore);
          assert cs[i] == Candidate(roster[i].id, sim(probe.value, roster[i].embedding));
        }
      }
      r
  }

  /**
   * Complete characterisation against the reference definition: if entry
   * `i` is the first entry with the top score, the match is entry `i` with
   * its score when that score is acceptable, and nothing otherwise.
   */
  lemma MatchIsFirstBest<E>(probe: E, roster: seq<Entry<E>>, sim: (E, E) -> real, i: int)
    requires IsFirstBest(Score(probe, roster, sim), i)
    ensures MatchEmbedding(Some(probe), roster, sim)
         == if sim(probe, roster[i].embedding) >= ACCEPT_THRESHOLD
            then Some(MatchResult(roster[i].id, sim(probe, roster[i].embedding)))
            else None
  {
    var cs := Score(probe, roster, sim);
    var r := Select(cs);
    assert MatchEmbedding(Some(probe), roster, sim) == r;
    if r.Some? {
      var k :| IsFirstBest(cs, k) && cs[k] == Candidate(r.value.studentId, r.value.confidenceScore);
      FirstBestIsUnique(cs, i, k);
    } else {
      assert cs[i].score < ACCEPT_THRESHOLD;
    }
  }

  /** A non-empty roster always has a first best entry. */
  lemma {:induction false} FirstBestExists(cs: seq<Candidate>) returns (i: int)
    requires |cs| > 0
    ensures IsFirstBest(cs, i)
    decreases |cs|
  {
    if |cs| == 1 {
      i := 0;
    } else {
      var n := |cs| - 1;
      var k := FirstBestExists(cs[..n]);
      assert forall j :: 0 <= j < n ==> cs[..n][j] == cs[j];
      if cs[n].score > cs[k].score {
        i := n;
      } else {
        i := k;
      }
    }
  }

  /**
   * Ties go to the entry visited first: when entries `i < j` share the top
   * acceptable score, the match is an entry at or before `i` carrying that
   * score (entry `i` itself unless an even earlier entry ties too), and with
   * distinct ids it is never entry `j`.
   */
  lemma TiesGoToEarliest<E>(probe: E, roster: seq<Entry<E>>, sim: (E, E) -> real, i: int, j: int)
    requires 0 <= i < j < |roster|
    requires DistinctIds(roster)
    requires sim(probe, roster[i].embedding) == sim(probe, roster[j].embedding) >= ACCEPT_THRESHOLD
    requires forall k :: 0 <= k < |roster| ==> sim(probe, roster[k].embedding) <= sim(probe, roster[i].embedding)
    ensures MatchEmbedding(Some(probe), roster, sim).Some?
    ensures exists k ::
      (&& 0 <= k <= i
       && MatchEmbedding(Some(probe), roster, sim).value
          == MatchResult(roster[k].id, sim(probe, roster[i].embedding)))
    ensures MatchEmbedding(Some(probe), roster, sim).value.studentId != roster[j].id
  {
    var cs := Score(probe, roster, sim);
    var f := FirstBestExists(cs);
    MatchIsFirstBest(probe, roster, sim, f);
    assert cs[i].score == cs[f].score;
  }
}

=== FILE: pipeline.dfy ===
/**
 * The body of the monitoring loop: for each face the detector reports,
 * filter, crop, embed, match and track. The detector, the embedding network
 * and the similarity measure are parameters; the clock is one reading per
 * region, since the source reads it inside each `trackPresence` call.
 */
module Pipeline {

  import opened JavaInt
  import opened Wrappers
  import opened Presence
  import opened Geometry
  import opened Matcher
  import opened Tracker

  /**
   * `Continue` carries the active-student map after the work; `Aborted`
   * means an exception left the frame loop and was caught outside it, which
   * ends the monitoring thread, and carries the map as it stood when that happened.
   */
  datatype Outcome = Continue(active: ActiveStudents) | Aborted(active: ActiveStudents)

  /** A grabbed frame as the loop uses it: its size and the detector's output. */
  datatype Frame = Frame(cols: Int32, rows: Int32, detections: seq<Detection>)

  ghost function RosterIds<E>(roster: seq<Entry<E>>): set<string>
  {
    set i | 0 <= i < |roster| :: roster[i].id
  }

  /** Record `k` was created or refreshed between `before` and `after`. */
  ghost predicate Touched(before: ActiveStudents, after: ActiveStudents, k: string)
    requires k in after
  {
    k !in before || after[k] != before[k]
  }

  /**
   * Every record touched between `before` and `after` belongs to a roster
   * student, carries an accepted score, and was refreshed at one of the
   * clock readings `clock`; no record disappeared.
   */
  ghost predicate OnlyMatchesTracked<E>(before: ActiveStudents, after: ActiveStudents, roster: seq<Entry<E>>, clock: seq<Int64>)
  {
    && before.Keys <= after.Keys
    && forall k :: k in after && Touched(before, after, k) ==>
         && k in RosterIds(roster)
         && after[k].lastConfidenceScore >= ACCEPT_THRESHOLD
         && after[k].lastSeen in clock
  }

  /**
   * One detection. It is skipped unless it qualifies; a qualifying face is
   * cropped with `safeRect`, and a crop outside the frame makes OpenCV's
   * sub-matrix constructor throw, aborting the loop. Otherwise the crop is
   * embedded (`None` when the embedder fails), matched, and a match is
   * tracked at time `now`.
   */
  function ProcessRegion<E>(
    d: Detection, cols: Int32, rows: Int32,
    roster: seq<Entry<E>>, sim: (E, E) -> real, embed: Rect -> Option<E>,
    active: ActiveStudents, now: Int64): (o: Outcome)
    requires 0 <= cols && 0 <= rows
    ensures !Qualifies(d) ==> o == Continue(active)
    ensures o.Aborted? <==> Qualifies(d) && !InsideFrame(SafeRect(FaceRect(d), cols, rows), cols, rows)
    ensures o.Aborted? ==> o.active == active
    ensures OnlyMatchesTracked(active, o.active, roster, [now])
    ensures o.Continue? && Qualifies(d) ==>
      var m := MatchEmbedding(embed(SafeRect(FaceRect(d), cols, rows)), roster, sim);
      && (m.None? ==> o.active == active)
      && (m.Some? ==> o.active == TrackPresence(active, m.value.studentId, m.value.confidenceScore, now))
  {
    if !(d.confidence > MIN_DETECTION_CONFIDENCE) then Continue(active)
    else
      var faceRect := FaceRect(d);
      if faceRect.width < MIN_FACE_SIZE || faceRect.height < MIN_FACE_SIZE then Continue(active)
      else
        var cropped := SafeRect(faceRect, cols, rows);
        if !InsideFrame(cropped, cols, rows) then Aborted(active)
        else
          match MatchEmbedding(embed(cropped), roster, sim)
          case None => Continue(active)
          case Some(m) =>
            assert m.studentId in RosterIds(roster);
            Continue(TrackPresence(active, m.studentId, m.confidenceScore, now))
  }

  /**
   * All detections of one frame in order; the first abort ends the frame.
   * The frame aborts exactly when one of its detections qualifies and has a
   * crop outside the frame; a frame without detections changes nothing.
   */
  function ProcessDetections<E>(
    dets: seq<Detection>, cols: Int32, rows: Int32,
    roster: seq<Entry<E>>, sim: (E, E) -> real, embed: Rect -> Option<E>,
    active: ActiveStudents, clock: seq<Int64>): (o: Outcome)
    requires 0 <= cols && 0 <= rows
    requires |clock| == |dets|
    ensures |dets| == 0 ==> o == Continue(active)
    ensures o.Aborted? <==>
      exists d :: d in dets && Qualifies(d) && !InsideFrame(SafeRect(FaceRect(d), cols, rows), cols, rows)
    decreases |dets|
  {
    if |dets| == 0 then Continue(active)
    else
      assert forall d :: d in dets <==> d == dets[0] || d in dets[1..];
      match ProcessRegion(dets[0], cols, rows, roster, sim, embed, active, clock[0])
      case Aborted(a) => Aborted(a)
      case Continue(a) => ProcessDetections(dets[1..], cols, rows, roster, sim, embed, a, clock[1..])
  }

  /**
   * One turn of the monitoring loop. A frame the grabber did not deliver is
   * skipped; for a delivered frame, no record disappears and every record
   * created or refreshed belongs to a roster student, holds an accepted
   * score and carries one of the frame's clock readings.
   */
  function LoopIteration<E>(
    grabbed: Option<Frame>, roster: seq<Entry<E>>, sim: (E, E) -> real, embed: Rect -> Option<E>,
    active: ActiveStudents, clock: seq<Int64>): (o: Outcome)
    requires grabbed.Some? ==> 0 <= grabbed.value.cols && 0 <= grabbed.value.rows
    requires grabbed.Some? ==> |clock| == |grabbed.value.detections|
    ensures grabbed.None? ==> o == Continue(active)
    ensures OnlyMatchesTracked(active, o.active, roster, clock)
  {
    match grabbed
    case None => Continue(active)
    case Some(f) =>
      FrameTracksOnlyMatches(f.detections, f.cols, f.rows, roster, sim, embed, active, clock);
      ProcessDetections(f.detections, f.cols, f.rows, roster, sim, embed, active, clock)
  }

  /**
   * Over a whole frame, the map only grows, and every record created or
   * refreshed belongs to a roster student, holds an accepted score and was
   * stamped with one of the frame's clock readings.
   */
  lemma {:induction false} FrameTracksOnlyMatches<E>(
    dets: seq<Detection>, cols: Int32, rows: Int32,
    roster: seq<Entry<E>>, sim: (E, E) -> real, embed: Rect -> Option<E>,
    active: ActiveStudents, clock: seq<Int64>)
    requires 0 <= cols && 0 <= rows
    requires |clock| == |dets|
    ensures OnlyMatchesTracked(active, ProcessDetections(dets, cols, rows, roster, sim, embed, active, clock).active, roster, clock)
    decreases |dets|
  {
    if |dets| > 0 {
      var o := ProcessRegion(dets[0], cols, rows, roster, sim, embed, active, clock[0]);
      if o.Continue? {
        var a := o.active;
        var rest := ProcessDetections(dets[1..], cols, rows, roster, sim, embed, a, clock[1..]);
        FrameTracksOnlyMatches(dets[1..], cols, rows, roster, sim, embed, a, clock[1..]);
        forall k | k in rest.active && Touched(active, rest.active, k)
          ensures k in RosterIds(roster)
          ensures rest.active[k].lastConfidenceScore >= ACCEPT_THRESHOLD
          ensures rest.active[k].lastSeen in clock
        {
          if !Touched(a, rest.active, k) {
            assert Touched(active, a, k);
          }
        }
      }
    }
  }

  /** A frame in which no detection qualifies changes nothing. */
  lemma {:induction false} UnqualifiedFrameChangesNothing<E>(
    dets: seq<Detection>, cols: Int32, rows: Int32,
    roster: seq<Entry<E>>, sim: (E, E) -> real, embed: Rect -> Option<E>,
    active: ActiveStudents, clock: seq<Int64>)
    requires 0 <= cols && 0 <= rows
    requires |clock| == |dets|
    requires forall i :: 0 <= i < |dets| ==> !Qualifies(dets[i])
    ensures ProcessDetections(dets, cols, rows, roster, sim, embed, active, clock) == Continue(active)
    decreases |dets|
  {
    if |dets| > 0 {
      assert !Qualifies(dets[0]);
      UnqualifiedFrameChangesNothing(dets[1..], cols, rows, roster, sim, embed, active, clock[1..]);
    }
  }

  /** The detection's corners lie inside the frame, in order. */
  predicate CornersInFrame(d: Detection, cols: int, rows: int)
  {
    && 0 <= d.x1 <= d.x2 <= cols
    && 0 <= d.y1 <= d.y2 <= rows
  }

  /**
   * The loop is never aborted by a frame whose detections all lie inside it
   * (for frames narrower than `Integer.MAX_VALUE - 10` pixels).
   */
  lemma {:induction false} InFrameDetectionsNeverAbort<E>(
    dets: seq<Detection>, cols: Int32, rows: Int32,
    roster: seq<Entry<E>>, sim: (E, E) -> real, embed: Rect -> Option<E>,
    active: ActiveStudents, clock: seq<Int64>)
    requires 0 <= cols <= INT32_MAX - MARGIN && 0 <= rows <= INT32_MAX - MARGIN
    requires |clock| == |dets|
    requires forall i :: 0 <= i < |dets| ==> CornersInFrame(dets[i], cols, rows)
    ensures ProcessDetections(dets, cols, rows, roster, sim, embed, active, clock).Continue?
    decreases |dets|
  {
    if |dets| > 0 {
      var d := dets[0];
      assert CornersInFrame(d, cols, rows);
      if Qualifies(d) {
        InFrameBoxGivesInFrameCrop(FaceRect(d), cols, rows);
      }
      var o := ProcessRegion(d, cols, rows, roster, sim, embed, active, clock[0]);
      InFrameDetectionsNeverAbort(dets[1..], cols, rows, roster, sim, embed, o.active, clock[1..]);
    }
  }

  /**
   * A confident, large face reported 60 pixels past the right edge of a 640 x 480
   * frame aborts the loop, so a valid face later in the same frame is never
   * tracked.
   */
  lemma OffFrameFaceAbortsLoop<E>(
    roster: seq<Entry<E>>, sim: (E, E) -> real, embed: Rect -> Option<E>,
    active: ActiveStudents, valid: Detection, t0: Int64, t1: Int64)
    ensures ProcessDetections([Detection(0.9, 700, 100, 800, 200), valid], 640, 480,
                              roster, sim, embed, active, [t0, t1]) == Aborted(active)
  {
    var d := Detection(0.9, 700, 100, 800, 200);
    assert FaceRect(d) == Rect(700, 100, 100, 100);
    OffFrameBoxGivesOutsideCrop();
  }
}

=== FILE: presence_info.dfy ===
/**
 * The per-student presence record. The wall clock the source reads inside
 * the constructor and `updateLastSeen` is the explicit parameter `now`.
 */
module Presence {

  import opened JavaInt
  import opened Wrappers

  /** Ten seconds without a sighting means the student has left. */
  const MAX_GAP_MS: Int64 := 10000

  datatype PresenceInfo = PresenceInfo(
    sessionId: Option<string>,
    firstSeen: Int64,
    lastSeen: Int64,
    lastConfidenceScore: real,
    syncedToBackend: bool)
  {
    /** A sighting at time `now`: refreshes the last-seen time and score only. */
    function UpdateLastSeen(score: real, now: Int64): (r: PresenceInfo)
      ensures r.lastSeen == now && r.lastConfidenceScore == score
      ensures r.firstSeen == firstSeen
      ensures r.sessionId == sessionId && r.syncedToBackend == syncedToBackend
      ensures r.IsStillPresent(now)
    {
      this.(lastSeen := now, lastConfidenceScore := score)
    }

    /**
     * The gap since the last sighting is computed in `long` arithmetic, so it
     * wraps for timestamps far apart; when that subtraction fits in a `long`,
     * presence means a gap below `MAX_GAP_MS`.
     */
    predicate IsStillPresent(currentTime: Int64)
      ensures INT64_MIN <= currentTime - lastSeen <= INT64_MAX ==>
        (IsStillPresent(currentTime) <==> currentTime - lastSeen < MAX_GAP_MS)
    {
      Wrap64(currentTime - lastSeen) < MAX_GAP_MS
    }

    function SetSessionId(id: Option<string>): (r: PresenceInfo)
      ensures r.sessionId == id
      ensures r.firstSeen == firstSeen && r.lastSeen == lastSeen
      ensures r.lastConfidenceScore == lastConfidenceScore && r.syncedToBackend == syncedToBackend
    {
      this.(sessionId := id)
    }

    function SetFirstSeen(t: Int64): (r: PresenceInfo)
      ensures r.firstSeen == t
      ensures r.sessionId == sessionId && r.lastSeen == lastSeen
      ensures r.lastConfidenceScore == lastConfidenceScore && r.syncedToBackend == syncedToBackend
    {
      this.(firstSeen := t)
    }

    function SetLastSeen(t: Int64): (r: PresenceInfo)
      ensures r.lastSeen == t
      ensures r.sessionId == sessionId && r.firstSeen == firstSeen
      ensures r.lastConfidenceScore == lastConfidenceScore && r.syncedToBackend == syncedToBackend
    {
      this.(lastSeen := t)
    }

    function SetLastConfidenceScore(score: real): (r: PresenceInfo)
      ensures r.lastConfidenceScore == score
      ensures r.sessionId == sessionId && r.firstSeen == firstSeen && r.lastSeen == lastSeen
      ensures r.syncedToBackend == syncedToBackend
    {
      this.(lastConfidenceScore := score)
    }

    function SetSyncedToBackend(synced: bool): (r: PresenceInfo)
      ensures r.syncedToBackend == synced
      ensures r.sessionId == sessionId && r.firstSeen == firstSeen && r.lastSeen == lastSeen
      ensures r.lastConfidenceScore == lastConfidenceScore
    {
      this.(syncedToBackend := synced)
    }
  }

  /** The constructor: first sighting at `now`, no session yet, not synced. */
  function NewPresenceInfo(score: real, now: Int64): (r: PresenceInfo)
    ensures r.firstSeen == now && r.lastSeen == now
    ensures r.lastConfidenceScore == score
    ensures r.sessionId == None && !r.syncedToBackend
    ensures r.IsStillPresent(now)
  {
    PresenceInfo(None, now, now, score, false)
  }

  /**
   * For non-negative clock readings the `long` subtraction cannot wrap, so
   * presence is exactly "less than ten seconds since the last sighting";
   * a gap of exactly 10 000 ms already counts as gone.
   */
  lemma IsStillPresentMeansRecentGap(p: PresenceInfo, t: Int64)
    requires 0 <= p.lastSeen && 0 <= t
    ensures p.IsStillPresent(t) <==> t - p.lastSeen < MAX_GAP_MS
    ensures t == p.lastSeen + MAX_GAP_MS ==> !p.IsStillPresent(t)
  {
  }

  /** Once a record has timed out it stays timed out as the clock advances. */
  lemma AbsenceIsPermanent(p: PresenceInfo, t: Int64, t': Int64)
    requires 0 <= p.lastSeen && 0 <= t <= t'
    requires !p.IsStillPresent(t)
    ensures !p.IsStillPresent(t')
  {
    IsStillPresentMeansRecentGap(p, t);
    IsStillPresentMeansRecentGap(p, t');
  }

  /**
   * Without the non-negative clock the gap wraps: a record last seen at the
   * most negative `long` has timed out 10 000 ms later, yet looks present
   * again at time 0.
   */
  lemma AbsenceNotPermanentWithoutClockBound()
    ensures var p := PresenceInfo(None, INT64_MIN, INT64_MIN, 0.0, false);
            !p.IsStillPresent(INT64_MIN + MAX_GAP_MS) && p.IsStillPresent(0)
  {
    assert Wrap64(0 - INT64_MIN) == INT64_MIN;
  }

  /** One sighting: a score together with the clock reading at which it happened. */
  datatype Sighting = Sighting(score: real, time: Int64)

  /** Successive `updateLastSeen` calls, earliest first. */
  function UpdateAll(p: PresenceInfo, sightings: seq<Sighting>): PresenceInfo
    decreases |sightings|
  {
    if |sightings| == 0 then p
    else UpdateAll(p.UpdateLastSeen(sightings[0].score, sightings[0].time), sightings[1..])
  }

  /** The clock readings never go backwards, starting from `start`. */
  ghost predicate ClockFrom(start: int, sightings: seq<Sighting>)
  {
    && (forall i :: 0 <= i < |sightings| ==> start <= sightings[i].time)
    && (forall i, j :: 0 <= i <= j < |sightings| ==> sightings[i].time <= sightings[j].time)
  }

  /**
   * With a non-decreasing clock, `firstSeen <= lastSeen` survives any run of
   * `updateLastSeen`; `firstSeen` itself never moves and the last sighting wins.
   */
  lemma {:induction false} UpdatesKeepFirstSeenFirst(p: PresenceInfo, sightings: seq<Sighting>)
    requires p.firstSeen <= p.lastSeen
    requires ClockFrom(p.lastSeen, sightings)
    ensures var r := UpdateAll(p, sightings);
            && r.firstSeen == p.firstSeen
            && r.firstSeen <= r.lastSeen
            && r.sessionId == p.sessionId && r.syncedToBackend == p.syncedToBackend
            && (|sightings| > 0 ==>
                  r.lastSeen == sightings[|sightings| - 1].time &&
                  r.lastConfidenceScore == sightings[|sightings| - 1].score)
    decreases |sightings|
  {
    if |sightings| > 0 {
      var q := p.UpdateLastSeen(sightings[0].score, sightings[0].time);
      var rest := sightings[1..];
      assert ClockFrom(q.lastSeen, rest) by {
        forall i | 0 <= i < |rest|
          ensures q.lastSeen <= rest[i].time
        {
          assert rest[i] == sightings[i + 1];
        }
        forall i, j | 0 <= i <= j < |rest|
          ensures rest[i].time <= rest[j].time
        {
          assert rest[i] == sightings[i + 1] && rest[j] == sightings[j + 1];
        }
      }
      UpdatesKeepFirstSeenFirst(q, rest);
      if |rest| > 0 {
        assert rest[|rest| - 1] == sightings[|sightings| - 1];
      }
    }
  }
}

=== FILE: tensor_layout.dfy ===
/**
 * `matToCHWFloatArray`: copies an interleaved height x width x channels
 * image into the planar channel-major layout the embedding network takes.
 */
module TensorLayout {

  import opened JavaInt

  /** An OpenCV `Mat` as its float indexer sees it: `pixels[y][x][c]`. */
  datatype Mat = Mat(rows: nat, cols: nat, channels: nat, pixels: seq<seq<seq<real>>>)
  {
    ghost predicate Valid()
    {
      && |pixels| == rows
      && (forall y :: 0 <= y < rows ==> |pixels[y]| == cols)
      && (forall y, x :: 0 <= y < rows && 0 <= x < cols ==> |pixels[y][x]| == channels)
    }
  }

  /** Where the source stores channel `c` of pixel `(y, x)`. */
  function ChwIndex(height: int, width: int, c: int, y: int, x: int): int
  {
    c * height * width + y * width + x
  }

  lemma MulMonotone(a: int, b: int, m: int)
    ensures a <= b && 0 <= m ==> a * m <= b * m
  {
    if a <= b && 0 <= m {
      assert b * m - a * m == (b - a) * m;
    }
  }

  /** Two mixed-radix numerals `q * m + r` with digits `r < m` are equal only digit by digit. */
  lemma MixedRadixUnique(q1: int, r1: int, q2: int, r2: int, m: int)
    requires 0 <= r1 < m && 0 <= r2 < m
    requires q1 * m + r1 == q2 * m + r2
    ensures q1 == q2 && r1 == r2
  {
    var d := q1 - q2;
    assert d * m == r2 - r1;
    MulMonotone(1, d, m);
    MulMonotone(1, -d, m);
    assert (-d) * m == -(d * m);
  }

  /** Every index the triple loop computes lies inside the output array. */
  lemma ChwIndexBounds(channels: nat, height: nat, width: nat, c: int, y: int, x: int)
    requires 0 <= c < channels && 0 <= y < height && 0 <= x < width
    ensures 0 <= ChwIndex(height, width, c, y, x) < channels * height * width
  {
    MulMonotone(y + 1, height, width);
    MulMonotone(c + 1, channels, height * width);
    assert (y + 1) * width == y * width + width;
    assert (c + 1) * (height * width) == c * height * width + height * width;
    assert channels * (height * width) == channels * height * width;
    assert 0 <= y * width && 0 <= c * height * width;
  }

  /** Distinct (channel, row, column) triples land in distinct slots. */
  lemma ChwIndexInjective(height: nat, width: nat, c1: int, y1: int, x1: int, c2: int, y2: int, x2: int)
    requires 0 <= c1 && 0 <= y1 < height && 0 <= x1 < width
    requires 0 <= c2 && 0 <= y2 < height && 0 <= x2 < width
    requires ChwIndex(height, width, c1, y1, x1) == ChwIndex(height, width, c2, y2, x2)
    ensures c1 == c2 && y1 == y2 && x1 == x2
  {
    ChwIndexBounds(1, height, width, 0, y1, x1);
    ChwIndexBounds(1, height, width, 0, y2, x2);
    assert c1 * height * width == c1 * (height * width);
    assert c2 * height * width == c2 * (height * width);
    MixedRadixUnique(c1, y1 * width + x1, c2, y2 * width + x2, height * width);
    MixedRadixUnique(y1, x1, y2, x2, width);
  }

  /** Every pixel whose slot lies below `k` has been copied into its slot. */
  ghost predicate CopiedBelow(mat: Mat, chw: seq<real>, k: int)
    requires mat.Valid()
  {
    forall c, y, x ::
      (&& 0 <= c < mat.channels && 0 <= y < mat.rows && 0 <= x < mat.cols
       && ChwIndex(mat.rows, mat.cols, c, y, x) < k)
      ==>
      (&& 0 <= ChwIndex(mat.rows, mat.cols, c, y, x) < |chw|
       && chw[ChwIndex(mat.rows, mat.cols, c, y, x)] == mat.pixels[y][x][c])
  }

  /** The slots below `k` have been written once, the rest not at all. */
  ghost predicate WrittenOnceBelow(writes: seq<nat>, k: int)
  {
    forall i :: 0 <= i < |writes| ==> writes[i] == if i < k then 1 else 0
  }

  /** The slot after the last one of a row is the first one of the next row. */
  lemma RowEnd(height: int, width: int, c: int, y: int)
    ensures ChwIndex(height, width, c, y, width) == ChwIndex(height, width, c, y + 1, 0)
  {
    assert (y + 1) * width == y * width + width;
  }

  /** The slot after the last one of a channel plane is the first one of the next plane. */
  lemma PlaneEnd(height: int, width: int, c: int)
    ensures ChwIndex(height, width, c, height, 0) == ChwIndex(height, width, c + 1, 0, 0)
  {
    assert (c + 1) * height * width == c * height * width + height * width;
  }

  /** Storing pixel `(y, x)`, channel `c`, into slot `k` extends the copied prefix by one slot. */
  lemma StoreStep(mat: Mat, chw: seq<real>, writes: seq<nat>, k: int, c: int, y: int, x: int)
    requires mat.Valid()
    requires 0 <= c < mat.channels && 0 <= y < mat.rows && 0 <= x < mat.cols
    requires k == ChwIndex(mat.rows, mat.cols, c, y, x)
    requires |chw| == |writes| == mat.channels * mat.rows * mat.cols
    requires CopiedBelow(mat, chw, k) && WrittenOnceBelow(writes, k)
    ensures 0 <= k < |chw|
    ensures CopiedBelow(mat, chw[k := mat.pixels[y][x][c]], k + 1)
    ensures WrittenOnceBelow(writes[k := writes[k] + 1], k + 1)
  {
    ChwIndexBounds(mat.channels, mat.rows, mat.cols, c, y, x);
    var chw' := chw[k := mat.pixels[y][x][c]];
    forall c', y', x' |
      && 0 <= c' < mat.channels && 0 <= y' < mat.rows && 0 <= x' < mat.cols
      && ChwIndex(mat.rows, mat.cols, c', y', x') < k + 1
      ensures 0 <= ChwIndex(mat.rows, mat.cols, c', y', x') < |chw'|
      ensures chw'[ChwIndex(mat.rows, mat.cols, c', y', x')] == mat.pixels[y'][x'][c']
    {
      ChwIndexBounds(mat.channels, mat.rows, mat.cols, c', y', x');
      if ChwIndex(mat.rows, mat.cols, c', y', x') == k {
        ChwIndexInjective(mat.rows, mat.cols, c', y', x', c, y, x);
      }
    }
  }

  /**
   * The output has `channels * height * width` slots; channel `c` of pixel
   * `(y, x)` sits at `c*H*W + y*W + x`, and every slot is written exactly
   * once (`writes` counts the stores to each slot).
   */
  method MatToCHWFloatArray(mat: Mat) returns (chw: seq<real>, ghost writes: seq<nat>)
    requires mat.Valid()
    requires mat.channels * mat.cols * mat.rows <= INT32_MAX
    ensures |chw| == mat.channels * mat.rows * mat.cols
    ensures forall c, y, x :: 0 <= c < mat.channels && 0 <= y < mat.rows && 0 <= x < mat.cols ==>
      && 0 <= ChwIndex(mat.rows, mat.cols, c, y, x) < |chw|
      && chw[ChwIndex(mat.rows, mat.cols, c, y, x)] == mat.pixels[y][x][c]
    ensures |writes| == |chw|
    ensures forall i :: 0 <= i < |writes| ==> writes[i] == 1
  {
    var channels, width, height := mat.channels, mat.cols, mat.rows;
    ghost var n := channels * height * width;
    assert channels * width * height == n;
    chw := seq(channels * width * height, _ => 0.0);
    writes := seq(n, _ => 0);
    ghost var k := 0;
    forall c', y', x' | 0 <= c' < channels && 0 <= y' < height && 0 <= x' < width
      ensures 0 <= ChwIndex(height, width, c', y', x')
    {
      ChwIndexBounds(channels, height, width, c', y', x');
    }
    var c := 0;
    while c < channels
      invariant 0 <= c <= channels
      invariant k == ChwIndex(height, width, c, 0, 0)
      invariant |chw| == n && |writes| == n
      invariant CopiedBelow(mat, chw, k)
      invariant WrittenOnceBelow(writes, k)
    {
      var y := 0;
      while y < height
        invariant 0 <= y <= height
        invariant k == ChwIndex(height, width, c, y, 0)
        invariant |chw| == n && |writes| == n
        invariant CopiedBelow(mat, chw, k)
        invariant WrittenOnceBelow(writes, k)
      {
        var x := 0;
        while x < width
          invariant 0 <= x <= width
          invariant k == ChwIndex(height, width, c, y, x)
          invariant |chw| == n && |writes| == n
          invariant CopiedBelow(mat, chw, k)
          invariant WrittenOnceBelow(writes, k)
        {
          var idx := c * height * width + y * width + x;
          StoreStep(mat, chw, writes, k, c, y, x);
          chw := chw[idx := mat.pixels[y][x][c]];
          writes := writes[idx := writes[idx] + 1];
          x := x + 1;
          k := k + 1;
        }
        RowEnd(height, width, c, y);
        y := y + 1;
      }
      PlaneEnd(height, width, c);
      c := c + 1;
    }
    forall c', y', x' | 0 <= c' < channels && 0 <= y' < height && 0 <= x' < width
      ensures ChwIndex(height, width, c', y', x') < k
    {
      ChwIndexBounds(channels, height, width, c', y', x');
    }
  }
}

=== FILE: tracker.dfy ===
/**
 * `trackPresence`: the map of active students, refreshed or extended on
 * every match. Nothing in the source removes an entry from it.
 */
module Tracker {

  import opened JavaInt
  import opened Presence

  type ActiveStudents = map<string, PresenceInfo>

  /**
   * A match for `id` at time `now`: an existing record is refreshed and
   * keeps its first sighting; otherwise a fresh record is added. No other
   * student's record changes.
   */
  function TrackPresence(active: ActiveStudents, id: string, score: real, now: Int64): (r: ActiveStudents)
    ensures r.Keys == active.Keys + {id}
    ensures forall k :: k in active && k != id ==> r[k] == active[k]
    ensures id in active ==>
      && r[id].firstSeen == active[id].firstSeen
      && r[id].sessionId == active[id].sessionId
      && r[id].syncedToBackend == active[id].syncedToBackend
    ensures id !in active ==>
      && r[id].firstSeen == now
      && r[id].sessionId.None? && !r[id].syncedToBackend
    ensures r[id].lastSeen == now && r[id].lastConfidenceScore == score
    ensures r[id].IsStillPresent(now)
  {
    if id in active then active[id := active[id].UpdateLastSeen(score, now)]
    else active[id := NewPresenceInfo(score, now)]
  }

  /** Every record's sightings are ordered and none lies after `now`. */
  ghost predicate ClockConsistent(active: ActiveStudents, now: int)
  {
    forall k :: k in active ==> active[k].firstSeen <= active[k].lastSeen <= now
  }

  /** A clock that does not run backwards keeps every record's sightings ordered. */
  lemma TrackPresenceKeepsClockConsistent(active: ActiveStudents, id: string, score: real, before: int, now: Int64)
    requires ClockConsistent(active, before) && before <= now
    ensures ClockConsistent(TrackPresence(active, id, score, now), now)
  {
  }

  /** Matches for one student, earliest first. */
  function TrackAll(active: ActiveStudents, id: string, sightings: seq<Sighting>): ActiveStudents
    decreases |sightings|
  {
    if |sightings| == 0 then active
    else TrackAll(TrackPresence(active, id, sightings[0].score, sightings[0].time), id, sightings[1..])
  }

  /**
   * A run of matches for a student with no record creates exactly one
   * record: its first sighting is the run's first clock reading, its last
   * sighting and score come from the run's last match, it has no session,
   * and every other student's record is untouched.
   */
  lemma {:induction false} RepeatedMatchesShareOneRecord(active: ActiveStudents, id: string, sightings: seq<Sighting>)
    requires id !in active && |sightings| > 0
    ensures var r := TrackAll(active, id, sightings);
            && r.Keys == active.Keys + {id}
            && (forall k :: k in active ==> r[k] == active[k])
            && r[id].firstSeen == sightings[0].time
            && r[id].lastSeen == sightings[|sightings| - 1].time
            && r[id].lastConfidenceScore == sightings[|sightings| - 1].score
            && r[id].sessionId.None? && !r[id].syncedToBackend
  {
    var first := TrackPresence(active, id, sightings[0].score, sightings[0].time);
    RefreshesKeepRecord(first, id, sightings[1..], sightings[0]);
    var rest := sightings[1..];
    if |rest| > 0 {
      assert rest[|rest| - 1] == sightings[|sightings| - 1];
    }
  }

  /** Further matches for a student who has a record only refresh that record. */
  lemma {:induction false} RefreshesKeepRecord(active: ActiveStudents, id: string, sightings: seq<Sighting>, latest: Sighting)
    requires id in active
    requires active[id].lastSeen == latest.time && active[id].lastConfidenceScore == latest.score
    ensures var r := TrackAll(active, id, sightings);
            var last := if |sightings| == 0 then latest else sightings[|sightings| - 1];
            && r.Keys == active.Keys
            && (forall k :: k in active && k != id ==> r[k] == active[k])
            && r[id].firstSeen == active[id].firstSeen
            && r[id].sessionId == active[id].sessionId
            && r[id].syncedToBackend == active[id].syncedToBackend
            && r[id].lastSeen == last.time
            && r[id].lastConfidenceScore == last.score
    decreases |sightings|
  {
    if |sightings| > 0 {
      var next := TrackPresence(active, id, sightings[0].score, sightings[0].time);
      var rest := sightings[1..];
      RefreshesKeepRecord(next, id, rest, sightings[0]);
      if |rest| > 0 {
        assert rest[|rest| - 1] == sightings[|sightings| - 1];
      }
    }
  }
}

=== FILE: wrappers.dfy ===
/** Optional values: the model's stand-in for Java's `null`. */
module Wrappers {

  datatype Option<+T> = None | Some(value: T)
}
